=== FILE: README.md ===
# Net-worth ledger, modelled in Dafny

The repository is a single-page browser ledger. The user records income and
expense entries, the page keeps a running net-worth total, shows the entries
created today, and shows statistics for a month label computed as "last
month". Entries live in an
IndexedDB object store named `entries`. Its keys come from an
auto-incrementing key generator. This project models the decision and
aggregation logic of `app.js`, taken out of its DOM and IndexedDB plumbing:

- `EntryStore` (`store.dfy`): the object store as a map from key to `Entry`
  plus the next key the generator will hand out (starting at 1). It has
  add, delete-by-key and list-all. Listing returns records in ascending key
  order.
- `Ledger` (`ledger.dfy`): the submit step (validation, signed net-worth
  delta, entry built from the creation-time labels), the today filter, and
  the one-pass last-month statistics.
- `Scheduler` (`scheduler.dfy`): the midnight check over the remembered
  "last reset date".
- `App` (`app.dfy`): the page's event handlers for submit, delete, show-stats and
  the midnight check, composed over one explicit `Session` value.
- `Seqs` and `Wrappers`: an order-preserving `Filter` with its lemmas, and
  `Option`/`Result`.

Several things are opaque inputs: the locale labels for today, the
statistics month and the creation time, the parsed amount, and the parsed filter threshold.
A NaN produced by `parseFloat` is `None`. Amounts are exact `real`s.

The form suggests two entry types, income and expense, with positive
amounts. This is an assumption: nothing in `app.js` enforces it, and the
model follows what the code does:
- The code accepts any number that is not NaN, including zero and negative
  amounts.
- The code accepts any type string. Only `"expense"` subtracts; every other
  value adds.
- Deleting an entry does not change the displayed net worth.
  `Ledger.DeleteShiftsFlow` states how the stored entries' net flow moves
  while the net worth stays put.

## Model

| member | source | states |
|---|---|---|
| `EntryStore.Empty` | app.js:8-12 | the freshly created store is empty and satisfies the key-generator invariant |
| `EntryStore.Add` | app.js:26-29 | the new key is the generator's next one and was not in use; the generator advances by exactly one; exactly one key is added, holding the entry; every earlier entry is unchanged; the invariant is kept |
| `EntryStore.Delete` | app.js:56-59 | only the given key is removed; the remaining entries are unchanged; the generator is not rewound; deleting an absent key leaves the store equal to what it was |
| `EntryStore.ListAllSpec` | app.js:41-48 | listing a store yields exactly its stored records, in strictly ascending key order |
| `EntryStore.AddAppends` | app.js:11 | an added entry is listed after every existing record, and the rest of the listing is unchanged |
| `EntryStore.DeleteFilters` | app.js:59 | after deleting, the listing is the old listing minus the records with that key, in the old order |
| `Ledger.Submit` | app.js:82-106 | refused exactly when the reason is empty or the amount is NaN; when accepted, net worth moves by minus the amount for `'expense'` and plus the amount otherwise, one fresh key holds an entry that copies the inputs and the creation labels, and every earlier entry is unchanged |
| `Ledger.SubmitRefusedChangesNothing` | app.js:82-85 | an empty reason or a NaN amount yields the validation failure, so neither the store nor the net worth changes |
| `Ledger.SubmitAppends` | app.js:99-108 | an accepted submit lists its new entry after all earlier entries |
| `Ledger.SubmitKeepsBalance` | app.js:91-108 | the displayed net worth and the stored entries' net flow move by the same delta, so their difference is preserved |
| `Ledger.DisplayTodayEntries` | app.js:167-176 | the forEach/push loop returns exactly the order-preserving filter of the listing on `date == today` |
| `Ledger.TodayViewSpec` | app.js:171-176 | the today view holds a record exactly when it is stored and its date is today, and it is empty exactly when no stored entry has today's date |
| `Ledger.TodayAfterDelete` | app.js:196-197 | after deleting `id`, the refreshed today view contains no record with that id; it is the old view minus that record, in the old order |
| `Ledger.ShowStats` | app.js:118-136 | the single pass computes the sum of amounts of the month's expenses, and the list of the month's entries of any type whose amount exceeds the threshold, in listing order |
| `Ledger.SpentZeroWithoutExpenses` | app.js:120-131 | the total spent is 0 when the month has no expense |
| `Ledger.MatchingSpec` | app.js:127-134 | an entry is in the matching list exactly when it is in the month and its amount exceeds the threshold, whatever its type |
| `Ledger.NaNThresholdMatchesNothing` | app.js:118-134 | with a NaN threshold the matching list is empty |
| `Ledger.DeleteShiftsFlow` | app.js:56-64 | deleting an entry takes exactly its delta out of the stored net flow, and nothing when the key is absent |
| `Scheduler.Check` | app.js:152-160 | a refresh is signalled exactly when today differs from the remembered date, including when nothing is remembered; afterwards today is remembered; without a refresh the state is unchanged |
| `Scheduler.CheckIdempotent` | app.js:157-160 | a second check on the same day changes nothing and does not refresh |
| `Scheduler.Run` | app.js:152-163 | after a sequence of checks the remembered date is the last day checked, and there are no more refreshes than checks |
| `Scheduler.RunCountsDayChanges` | app.js:152-163 | a run of checks signals exactly one refresh per check whose date differs from the one remembered before it |
| `Scheduler.OneRefreshPerDay` | app.js:152-163 | any number of checks within one day refresh once if that day was not remembered, and never if it was |
| `App.OnSubmit` | app.js:77-114 | the user is alerted exactly on invalid input, and then the session is unchanged and nothing is refreshed; otherwise the entry built from the inputs and creation labels is stored under the generator's next (unused) key, the generator advances by one, every earlier entry is kept, the listing gains exactly that record at its end, net worth moves by the entry's delta, and the today view is refreshed from the new store |
| `App.OnDelete` | app.js:196-198 | only the key is removed; every surviving entry, the key generator, the store invariant, net worth and the remembered date are kept; the refreshed view is the old today view minus the deleted id, in the old order; an absent id leaves the session unchanged |
| `App.OnMidnight` | app.js:152-160 | the today view is refreshed exactly when the remembered date is not today; afterwards today is remembered and nothing else changes |
| `App.MidnightTwiceIsOnce` | app.js:155-160 | a second midnight check on the same day neither refreshes nor changes the session |
| `App.OnShowStats` | app.js:117-136 | statistics over the whole store: the total is the sum over the month's expenses, and the list is the month's stored records above the threshold, in listing order, each once |

## Left out

- Opening and upgrading the database, transactions, success/error callbacks and console logging (app.js:5-69) are asynchronous browser I/O. Only the store's map semantics are modelled. A failed open, add or delete is not modelled.
- The refresh at app.js:113 opens its read-only transaction after the add's read-write one on the same store, so IndexedDB runs it after the add. `App.OnSubmit` models that order. Only a failed add, which is not modelled, would leave the entry out.
- DOM reads and writes, HTML construction, the alert text and clearing the form fields (app.js:72-74, 111-112, 138-147, 178-191) are presentation.
- `toLocaleDateString`, `toLocaleTimeString`, `toLocaleString` and the `setMonth(getMonth() - 1)` date arithmetic (app.js:87-89, 123-125) are foreign calls. Their results are string inputs.
- App.OnShowStats: the month label it is given is whatever app.js:123-125 produces, and that is not always the previous month. `setMonth(getMonth() - 1)` keeps the day of the month. So on 29-31 March, 31 May, 31 July, 31 October and 31 December it asks for a day the previous month does not have, which rolls forward into the current month. On those days the label names the current month and the statistics cover it. The same holds for `Ledger.ShowStats`, whose `lastMonth` input is that label.
- The delay until midnight and the `setTimeout` rescheduling (app.js:162-163) are wall-clock time. Each run of the check is one call.
- Scheduler.Run: assumes every check completes and re-arms the midnight timer. In the source this does not always happen. The first check runs at page load (app.js:209), before the database open completes (app.js:15-16), so `db` (app.js:2) is still undefined. When the remembered date differs from today, app.js:158 saves today and then app.js:159 reaches `db.transaction` (app.js:42), which throws. The throw skips the reschedule at app.js:162-163, so that page session runs no further check. This happens on the first load ever, and on the first load of a new day when no other open tab has already run that day's check. `App.OnMidnight`'s refreshed view is likewise not produced on that call.
- App.OnMidnight: its contract covers checks made after the database has opened. The check at page load (app.js:209) can run before then. When the date has changed it saves today and then throws at app.js:42, so no view is produced on that call.
- The model is one browser tab. Both `localStorage` and the IndexedDB store are shared by every tab of the page's origin, so another tab can change the stored entries or the remembered date between two steps of this tab. In particular, when two tabs are open at midnight, the first tab's check (app.js:155-160) saves today. The second tab then finds today remembered and does not refresh, so it keeps showing the previous day's entries as today's. `Scheduler.Check` and `App.OnMidnight` describe one tab whose remembered date no other tab changes.
- `localStorage` reads and writes (app.js:155, 158). The remembered date is an `Option<string>` field, and `None` is the missing item.
- IEEE-754 behaviour of `parseFloat` and of number addition and comparison. Amounts are exact reals, and NaN is `None`.
- Ledger.Submit: a parsed amount of plus or minus Infinity passes the NaN check in the source; infinities are not modelled, so an infinite amount is outside the contract.
- `App.OnSubmit`: the displayed net worth is taken to be a number. The code re-parses the displayed text with `parseFloat`. That text is always a number the page wrote itself, or the page's initial value, which is not part of this model.
- The key generator's upper limit of 2^53 is not modelled. Keys are unbounded naturals.

=== FILE: app.dfy ===
/** The page's event handlers, composed from the store, the ledger and the
    scheduler over one explicit session value: the object store, the
    displayed net worth and the remembered date of the last refresh. */
module App {
  import opened Wrappers
  import opened Seqs
  import opened EntryStore
  import opened Ledger
  import opened Scheduler

  datatype Session = Session(store: Store, networth: real, lastReset: Option<string>)

  /** What a handler leaves behind: the new session, whether the user was
      alerted, and the today view when the handler refreshed it. */
  datatype Reaction = Reaction(session: Session, alerted: bool, view: Option<seq<Record>>)

  /** The submit button. A refused submit alerts and changes nothing; an
      accepted one records the entry, moves the net worth and refreshes the
      today view. */
  function OnSubmit(s: Session, input: Input, at: Stamp, today: string): (r: Reaction)
    requires Valid(s.store)
    ensures r.alerted <==> input.reason == "" || input.amount.None?
    ensures r.alerted ==> r.session == s && r.view == None
    ensures !r.alerted ==>
      && Valid(r.session.store)
      && s.store.next !in s.store.entries
      && r.session.store.next == s.store.next + 1
      && r.session.store.entries == s.store.entries[s.store.next := MakeEntry(input, at)]
      && ListAll(r.session.store) == ListAll(s.store) + [Record(s.store.next, MakeEntry(input, at))]
      && r.session.networth == s.networth + Delta(MakeEntry(input, at))
      && r.session.lastReset == s.lastReset
      && r.view == Some(TodayView(r.session.store, today))
  {
    match Submit(s.store, s.networth, input, at)
    case Failure(_) => Reaction(s, true, None)
    case Success(p) =>
      SubmitAppends(s.store, s.networth, input, at);
      var s' := Session(p.store, p.networth, s.lastReset);
      Reaction(s', false, Some(TodayView(s'.store, today)))
  }

  /** The delete button of a shown entry: the entry goes, the net worth
      stays, and the refreshed today view no longer shows it. */
  function OnDelete(s: Session, id: nat, today: string): (r: Reaction)
    ensures !r.alerted
    ensures r.session.store.entries.Keys == s.store.entries.Keys - {id}
    ensures forall k :: k in r.session.store.entries ==> r.session.store.entries[k] == s.store.entries[k]
    ensures r.session.store.next == s.store.next
    ensures Valid(s.store) ==> Valid(r.session.store)
    ensures r.session.networth == s.networth && r.session.lastReset == s.lastReset
    ensures r.view == Some(Filter(TodayView(s.store, today), NotId(id)))
    ensures r.view.Some? && forall e :: e in r.view.value ==> e.id != id
    ensures id !in s.store.entries ==> r.session == s
  {
    var s' := Session(Delete(s.store, id), s.networth, s.lastReset);
    TodayAfterDelete(s.store, id, today);
    Reaction(s', false, Some(TodayView(s'.store, today)))
  }

  /** One run of the midnight check: refreshes the today view and remembers
      `today` exactly when `today` differs from the remembered date. */
  function OnMidnight(s: Session, today: string): (r: Reaction)
    ensures !r.alerted
    ensures r.view.Some? <==> s.lastReset != Some(today)
    ensures r.view.Some? ==> r.view.value == TodayView(s.store, today)
    ensures r.session == Session(s.store, s.networth, Some(today))
  {
    var c := Check(s.lastReset, today);
    var s' := Session(s.store, s.networth, c.lastReset);
    Reaction(s', false, if c.refresh then Some(TodayView(s.store, today)) else None)
  }

  /** A second midnight check on the same day neither refreshes nor changes
      the session. */
  lemma MidnightTwiceIsOnce(s: Session, today: string)
    ensures var once := OnMidnight(s, today);
      OnMidnight(once.session, today) == Reaction(once.session, false, None)
  {
  }

  /** The statistics button: one pass over the whole listing. */
  method OnShowStats(s: Session, lastMonth: string, threshold: Option<real>)
    returns (totalSpent: real, filtered: seq<Record>)
    requires Valid(s.store)
    ensures totalSpent == Total(Filter(ListAll(s.store), SpentIn(lastMonth)))
    ensures filtered == Filter(ListAll(s.store), AboveIn(lastMonth, threshold))
    ensures forall r :: r in filtered <==>
      r.id in s.store.entries && s.store.entries[r.id] == r.entry
      && r.entry.month == lastMonth && Exceeds(r.entry.amount, threshold)
  {
    totalSpent, filtered := ShowStats(ListAll(s.store), lastMonth, threshold);
    MatchingSpec(ListAll(s.store), lastMonth, threshold);
    ListAllSpec(s.store);
  }
}

=== FILE: ledger.dfy ===
/** The decisions of the ledger: validating and recording a submitted
    transaction, the today view, and the last-month statistics. Dates,
    month names and times are the labels the browser's locale formatting
    produced; they are compared as opaque strings. */
module Ledger {
  import opened Wrappers
  import opened Seqs
  import opened EntryStore

  /** The entry type that counts as money going out; every other type
      value counts as money coming in. */
  const Expense: string := "expense"

  /** The three form fields as read on submit. `amount` is the parsed
      number, `None` when parsing produced NaN. */
  datatype Input = Input(kind: string, reason: string, amount: Option<real>)

  /** The creation-time labels: locale date, "Month Year", locale time. */
  datatype Stamp = Stamp(date: string, month: string, time: string)

  /** The one validation failure: the user is asked to fill in all fields. */
  datatype ValidationError = FieldsIncomplete

  /** What an accepted submit produces: the store with the new entry, the
      new displayed net worth, and the key the entry was stored under. */
  datatype Posted = Posted(store: Store, networth: real, id: nat)

  /** The signed change an entry makes to net worth. */
  function Delta(e: Entry): real {
    if e.kind == Expense then -e.amount else e.amount
  }

  /** The entry a submit builds from the form and the creation labels. */
  function MakeEntry(input: Input, at: Stamp): Entry
    requires input.amount.Some?
  {
    Entry(at.date, at.month, at.time, input.kind, input.reason, input.amount.value)
  }

  /** Submitting the form: an empty reason or a NaN amount is refused with
      nothing changed; otherwise the displayed net worth moves by the signed
      amount and the entry is added to the store. */
  function Submit(store: Store, networth: real, input: Input, at: Stamp): (r: Result<Posted, ValidationError>)
    requires Valid(store)
    ensures r.Failure? <==> input.reason == "" || input.amount.None?
    ensures r.Failure? ==> r.error == FieldsIncomplete
    ensures r.Success? && input.kind == Expense ==> r.value.networth == networth - input.amount.value
    ensures r.Success? && input.kind != Expense ==> r.value.networth == networth + input.amount.value
    ensures r.Success? ==>
      && Valid(r.value.store)
      && r.value.id == store.next && r.value.id !in store.entries
      && r.value.store.next == store.next + 1
      && r.value.store.entries.Keys == store.entries.Keys + {r.value.id}
      && r.value.store.entries[r.value.id]
         == Entry(at.date, at.month, at.time, input.kind, input.reason, input.amount.value)
      && (forall k :: k in store.entries ==> r.value.store.entries[k] == store.entries[k])
  {
    if input.reason == "" || input.amount.None? then
      Failure(FieldsIncomplete)
    else
      var e := MakeEntry(input, at);
      var added := Add(store, e);
      Success(Posted(added.store, networth + Delta(e), added.id))
  }

  /** A refused submit leaves both the store and the net worth as they were. */
  lemma SubmitRefusedChangesNothing(store: Store, networth: real, input: Input, at: Stamp)
    requires Valid(store)
    requires input.reason == "" || input.amount.None?
    ensures Submit(store, networth, input, at) == Failure(FieldsIncomplete)
  {
  }

  /** An accepted submit lists the new entry after every earlier one. */
  lemma SubmitAppends(store: Store, networth: real, input: Input, at: Stamp)
    requires Valid(store)
    requires Submit(store, networth, input, at).Success?
    ensures var p := Submit(store, networth, input, at).value;
      ListAll(p.store) == ListAll(store) + [Record(p.id, MakeEntry(input, at))]
  {
    AddAppends(store, MakeEntry(input, at));
  }

  // ---------------------------------------------------------------------
  // Today view

  /** Predicate of the records created on the day labelled `today`. */
  function OnDay(today: string): Record -> bool {
    (r: Record) => r.entry.date == today
  }

  /** The entries shown as today's: those listed by the store whose date
      label is `today`, in store order. */
  function TodayView(s: Store, today: string): seq<Record> {
    Filter(ListAll(s), OnDay(today))
  }

  /** The forEach loop that collects today's entries from a listing. */
  method DisplayTodayEntries(entries: seq<Record>, today: string) returns (todayEntries: seq<Record>)
    ensures todayEntries == Filter(entries, OnDay(today))
  {
    todayEntries := [];
    var i := 0;
    while i < |entries|
      invariant 0 <= i <= |entries|
      invariant todayEntries == Filter(entries[..i], OnDay(today))
    {
      assert entries[..i + 1][..i] == entries[..i];
      if entries[i].entry.date == today {
        todayEntries := todayEntries + [entries[i]];
      }
      i := i + 1;
    }
    assert entries[..i] == entries;
  }

  /** The today view holds exactly the stored records dated `today`, in
      ascending key order, and is empty exactly when none is. */
  lemma TodayViewSpec(s: Store, today: string)
    requires Valid(s)
    ensures forall r :: r in TodayView(s, today) <==>
      r.id in s.entries && s.entries[r.id] == r.entry && r.entry.date == today
    ensures TodayView(s, today) == [] <==>
      forall k :: k in s.entries ==> s.entries[k].date != today
  {
    ListAllSpec(s);
    forall r | r in ListAll(s) && r.entry.date == today
      ensures r in TodayView(s, today)
    {
      FilterComplete(ListAll(s), OnDay(today), r);
    }
    FilterEmptyIff(ListAll(s), OnDay(today));
    forall k | k in s.entries
      ensures Record(k, s.entries[k]) in ListAll(s)
    {
    }
  }

  /** After deleting `id` the refreshed today view does not show it, and
      shows every other record of the old view, in the same order. */
  lemma TodayAfterDelete(s: Store, id: nat, today: string)
    ensures forall r :: r in TodayView(Delete(s, id), today) ==> r.id != id
    ensures TodayView(Delete(s, id), today) == Filter(TodayView(s, today), NotId(id))
  {
    DeleteFilters(s, id);
    FilterCommute(ListAll(s), NotId(id), OnDay(today));
  }

  // ---------------------------------------------------------------------
  // Last-month statistics

  /** Whether `amount` exceeds the threshold; a NaN threshold (`None`)
      makes the comparison false. */
  predicate Exceeds(amount: real, threshold: Option<real>) {
    threshold.Some? && amount > threshold.value
  }

  /** Predicate of the expenses in the month labelled `month`. */
  function SpentIn(month: string): Record -> bool {
    (r: Record) => r.entry.month == month && r.entry.kind == Expense
  }

  /** Predicate of the records, of either type, in `month` whose amount
      exceeds the threshold. */
  function AboveIn(month: string, threshold: Option<real>): Record -> bool {
    (r: Record) => r.entry.month == month && Exceeds(r.entry.amount, threshold)
  }

  /** The sum of the amounts of `rs`. */
  function Total(rs: seq<Record>): real {
    if |rs| == 0 then 0.0 else Total(rs[..|rs| - 1]) + rs[|rs| - 1].entry.amount
  }

  /** The single pass over the listing that the statistics button runs: it
      sums the month's expenses and collects the month's entries above the
      threshold, of any type. */
  method ShowStats(entries: seq<Record>, lastMonth: string, threshold: Option<real>)
    returns (totalSpent: real, filtered: seq<Record>)
    ensures totalSpent == Total(Filter(entries, SpentIn(lastMonth)))
    ensures filtered == Filter(entries, AboveIn(lastMonth, threshold))
  {
    totalSpent := 0.0;
    filtered := [];
    var i := 0;
    while i < |entries|
      invariant 0 <= i <= |entries|
      invariant totalSpent == Total(Filter(entries[..i], SpentIn(lastMonth)))
      invariant filtered == Filter(entries[..i], AboveIn(lastMonth, threshold))
    {
      var r := entries[i];
      assert entries[..i + 1] == entries[..i] + [r];
      FilterSnoc(entries[..i], r, SpentIn(lastMonth));
      FilterSnoc(entries[..i], r, AboveIn(lastMonth, threshold));
      if r.entry.month == lastMonth {
        if r.entry.kind == Expense {
          TotalSnoc(Filter(entries[..i], SpentIn(lastMonth)), r);
          totalSpent := totalSpent + r.entry.amount;
        } else {
          // the entry is not an expense: the spent filter gains nothing
          assert Filter(entries[..i], SpentIn(lastMonth)) + [] == Filter(entries[..i], SpentIn(lastMonth));
        }
        if Exceeds(r.entry.amount, threshold) {
          filtered := filtered + [r];
        }
      } else {
        // the entry is in another month: neither filter gains anything
        assert Filter(entries[..i], SpentIn(lastMonth)) + [] == Filter(entries[..i], SpentIn(lastMonth));
      }
      i := i + 1;
    }
    assert entries[..i] == entries;
  }

  lemma TotalSnoc(rs: seq<Record>, r: Record)
    ensures Total(rs + [r]) == Total(rs) + r.entry.amount
  {
  }

  /** With no expense in the month the total spent is 0. */
  lemma SpentZeroWithoutExpenses(entries: seq<Record>, lastMonth: string)
    requires forall r :: r in entries ==> !(r.entry.month == lastMonth && r.entry.kind == Expense)
    ensures Total(Filter(entries, SpentIn(lastMonth))) == 0.0
  {
    FilterEmptyIff(entries, SpentIn(lastMonth));
  }

  /** The matching list holds exactly the month's records above the
      threshold, whatever their type. */
  lemma {:induction false} MatchingSpec(entries: seq<Record>, lastMonth: string, threshold: Option<real>)
    ensures forall r :: r in Filter(entries, AboveIn(lastMonth, threshold)) <==>
      r in entries && r.entry.month == lastMonth && Exceeds(r.entry.amount, threshold)
  {
    forall r | r in entries && r.entry.month == lastMonth && Exceeds(r.entry.amount, threshold)
      ensures r in Filter(entries, AboveIn(lastMonth, threshold))
    {
      FilterComplete(entries, AboveIn(lastMonth, threshold), r);
    }
  }

  /** A NaN threshold matches nothing. */
  lemma NaNThresholdMatchesNothing(entries: seq<Record>, lastMonth: string)
    ensures Filter(entries, AboveIn(lastMonth, None)) == []
  {
    FilterEmptyIff(entries, AboveIn(lastMonth, None));
  }

  // ---------------------------------------------------------------------
  // Net worth against the stored entries

  /** The sum of the signed deltas of `rs`. */
  function NetFlow(rs: seq<Record>): real {
    if |rs| == 0 then 0.0 else NetFlow(rs[..|rs| - 1]) + Delta(rs[|rs| - 1].entry)
  }

  /** An accepted submit moves the net worth and the stored entries' net
      flow by the same amount, so their difference is kept. */
  lemma SubmitKeepsBalance(store: Store, networth: real, input: Input, at: Stamp)
    requires Valid(store)
    requires Submit(store, networth, input, at).Success?
    ensures var p := Submit(store, networth, input, at).value;
      p.networth - NetFlow(ListAll(p.store)) == networth - NetFlow(ListAll(store))
  {
    SubmitAppends(store, networth, input, at);
    var p := Submit(store, networth, input, at).value;
    var rs := ListAll(store);
    assert (rs + [Record(p.id, MakeEntry(input, at))])[..|rs|] == rs;
  }

  lemma {:induction false} ListBelowDeleteFlow(m: map<nat, Entry>, id: nat, n: nat)
    ensures NetFlow(ListBelow(m - {id}, n)) + (if id in m && id < n then Delta(m[id]) else 0.0)
         == NetFlow(ListBelow(m, n))
  {
    if n > 0 {
      var k := n - 1;
      var m' := m - {id};
      ListBelowDeleteFlow(m, id, k);
      var front := ListBelow(m, k);
      var front' := ListBelow(m', k);
      // unfold the last step of both listings: key k contributes a record
      // to a listing exactly when it is in that map
      if k in m {
        assert (front + [Record(k, m[k])])[..|front|] == front;
      } else {
        assert front + [] == front;
      }
      if k in m' {
        assert (front' + [Record(k, m'[k])])[..|front'|] == front';
      } else {
        assert front' + [] == front';
      }
    }
  }

  /** Deleting an entry takes its delta out of the stored entries' net
      flow; the displayed net worth is not touched by a delete. */
  lemma DeleteShiftsFlow(s: Store, id: nat)
    requires Valid(s)
    ensures NetFlow(ListAll(Delete(s, id))) + (if id in s.entries then Delta(s.entries[id]) else 0.0)
         == NetFlow(ListAll(s))
  {
    ListBelowDeleteFlow(s.entries, id, s.next);
  }
}

=== FILE: scheduler.dfy ===
/** The midnight check: the date of the last refresh is kept across page
    loads, and the today view is refreshed only when the date label has
    changed since. The timer that re-runs the check is not modelled; each
    run of the check is one call of `Check`. */
module Scheduler {
  import opened Wrappers

  /** The outcome of one check: the remembered date afterwards, and whether
      the today view is to be refreshed. */
  datatype Checked = Checked(lastReset: Option<string>, refresh: bool)

  /** One run of the check on the day labelled `today`. `None` is the
      remembered date before any check ever ran. */
  function Check(lastReset: Option<string>, today: string): (r: Checked)
    ensures r.refresh <==> lastReset != Some(today)
    ensures r.lastReset == Some(today)
    ensures !r.refresh ==> r.lastReset == lastReset
  {
    if lastReset != Some(today) then Checked(Some(today), true)
    else Checked(lastReset, false)
  }

  /** A second check on the same day changes nothing and does not refresh. */
  lemma CheckIdempotent(lastReset: Option<string>, today: string)
    ensures var once := Check(lastReset, today);
      Check(once.lastReset, today) == Checked(once.lastReset, false)
  {
  }

  /** The outcome of a run of checks: the remembered date afterwards and
      how many refreshes were signalled. */
  datatype Ran = Ran(lastReset: Option<string>, refreshes: nat)

  /** Runs the check once per label of `days`, in order. */
  function Run(lastReset: Option<string>, days: seq<string>): (r: Ran)
    ensures |days| == 0 ==> r == Ran(lastReset, 0)
    ensures |days| > 0 ==> r.lastReset == Some(days[|days| - 1])
    ensures r.refreshes <= |days|
    decreases |days|
  {
    if |days| == 0 then Ran(lastReset, 0)
    else
      var c := Check(lastReset, days[0]);
      var rest := Run(c.lastReset, days[1..]);
      Ran(rest.lastReset, rest.refreshes + if c.refresh then 1 else 0)
  }

  /** Whether the `i`-th check of `days` sees a date other than the one
      remembered before it: `lastReset` for the first check, the previous
      day's label for every later one. */
  predicate Differs(lastReset: Option<string>, days: seq<string>, i: nat)
    requires i < |days|
  {
    (if i == 0 then lastReset else Some(days[i - 1])) != Some(days[i])
  }

  /** How many of the first `n` checks of `days` see a changed date. */
  function DayChanges(lastReset: Option<string>, days: seq<string>, n: nat): nat
    requires n <= |days|
  {
    if n == 0 then 0
    else DayChanges(lastReset, days, n - 1) + if Differs(lastReset, days, n - 1) then 1 else 0
  }

  lemma {:induction false} DayChangesShift(lastReset: Option<string>, days: seq<string>, n: nat)
    requires 1 <= n <= |days|
    ensures DayChanges(lastReset, days, n)
         == DayChanges(Some(days[0]), days[1..], n - 1) + if Differs(lastReset, days, 0) then 1 else 0
  {
    if n > 1 {
      DayChangesShift(lastReset, days, n - 1);
      assert Differs(lastReset, days, n - 1) == Differs(Some(days[0]), days[1..], n - 2);
    }
  }

  /** A run of checks signals one refresh for every check that sees a date
      other than the one remembered before it, and no other. */
  lemma {:induction false} RunCountsDayChanges(lastReset: Option<string>, days: seq<string>)
    ensures Run(lastReset, days).refreshes == DayChanges(lastReset, days, |days|)
    decreases |days|
  {
    if |days| > 0 {
      RunCountsDayChanges(Some(days[0]), days[1..]);
      DayChangesShift(lastReset, days, |days|);
    }
  }

  /** However many times the check runs within one day, the view is
      refreshed at most once: once if that day was not the remembered one,
      never if it was. */
  lemma {:induction false} OneRefreshPerDay(lastReset: Option<string>, today: string, days: seq<string>)
    requires |days| > 0
    requires forall i :: 0 <= i < |days| ==> days[i] == today
    ensures Run(lastReset, days).refreshes == if lastReset == Some(today) then 0 else 1
    decreases |days|
  {
    if |days| > 1 {
      OneRefreshPerDay(Some(today), today, days[1..]);
    }
  }
}

=== FILE: seqs.dfy ===
/** Order-preserving filtering of sequences, the shape of every
    "forEach, test, push" loop of the ledger. */
module Seqs {

  /** The elements of `s` that satisfy `p`, in the order they occur in `s`. */
  function Filter<T>(s: seq<T>, p: T -> bool): (r: seq<T>)
    ensures |r| <= |s|
    ensures forall x :: x in r ==> x in s && p(x)
  {
    if |s| == 0 then []
    else
      var k := |s| - 1;
      assert forall x :: x in s[..k] ==> x in s;
      Filter(s[..k], p) + (if p(s[k]) then [s[k]] else [])
  }

  /** Nothing that satisfies `p` is dropped. */
  lemma {:induction false} FilterComplete<T>(s: seq<T>, p: T -> bool, x: T)
    requires x in s && p(x)
    ensures x in Filter(s, p)
  {
    var k := |s| - 1;
    assert s == s[..k] + [s[k]];
    if s[k] != x {
      assert x in s[..k];
      FilterComplete(s[..k], p, x);
    }
  }

  /** Filtering distributes over concatenation, so the relative order of
      the kept elements is that of `a ++ b`. */
  lemma {:induction false} FilterConcat<T>(a: seq<T>, b: seq<T>, p: T -> bool)
    ensures Filter(a + b, p) == Filter(a, p) + Filter(b, p)
    decreases |b|
  {
    if |b| == 0 {
      assert a + b == a;
    } else {
      var k := |b| - 1;
      assert (a + b)[..|a + b| - 1] == a + b[..k];
      assert (a + b)[|a + b| - 1] == b[k];
      FilterConcat(a, b[..k], p);
    }
  }

  /** Two filters can be applied in either order. */
  lemma {:induction false} FilterCommute<T>(s: seq<T>, p: T -> bool, q: T -> bool)
    ensures Filter(Filter(s, p), q) == Filter(Filter(s, q), p)
  {
    if |s| > 0 {
      var k := |s| - 1;
      FilterCommute(s[..k], p, q);
      var tp := if p(s[k]) then [s[k]] else [];
      var tq := if q(s[k]) then [s[k]] else [];
      FilterConcat(Filter(s[..k], p), tp, q);
      FilterConcat(Filter(s[..k], q), tq, p);
      FilterSingleton(s[k], p);
      FilterSingleton(s[k], q);
      if p(s[k]) {
        assert Filter(tp, q) == tq;
      } else {
        assert tp == [] && Filter([], q) == [];
      }
      if q(s[k]) {
        assert Filter(tq, p) == tp;
      } else {
        assert tq == [] && Filter([], p) == [];
      }
    }
  }

  /** Extending the input by one element extends the filter by that
      element exactly when it satisfies `p`. */
  lemma FilterSnoc<T>(s: seq<T>, x: T, p: T -> bool)
    ensures Filter(s + [x], p) == Filter(s, p) + (if p(x) then [x] else [])
  {
  }

  /** A one-element sequence is kept or dropped as a whole. */
  lemma FilterSingleton<T>(x: T, p: T -> bool)
    ensures Filter([x], p) == if p(x) then [x] else []
  {
  }

  /** The filter is empty exactly when no element satisfies `p`. */
  lemma {:induction false} FilterEmptyIff<T>(s: seq<T>, p: T -> bool)
    ensures Filter(s, p) == [] <==> forall x :: x in s ==> !p(x)
  {
    if Filter(s, p) != [] {
      var y := Filter(s, p)[0];
      assert y in Filter(s, p);
    }
    forall x | x in s && p(x)
      ensures x in Filter(s, p)
    {
      FilterComplete(s, p, x);
    }
  }
}

=== FILE: store.dfy ===
/** The `entries` object store: records kept under keys handed out by an
    auto-incrementing key generator. Only its abstract map semantics are
    modelled; the transactions and callbacks around it are not. */
module EntryStore {
  import opened Seqs

  /** One income/expense record as it is written to the store. The date,
      month and time labels are snapshots taken when the entry is created. */
  datatype Entry = Entry(
    date: string,
    month: string,
    time: string,
    kind: string,
    reason: string,
    amount: real)

  /** A stored entry together with the key the store gave it, the shape in
      which listing the store returns it. */
  datatype Record = Record(id: nat, entry: Entry)

  /** The collection and the next key its generator will hand out. */
  datatype Store = Store(entries: map<nat, Entry>, next: nat)

  /** A fresh key generator starts at 1. */
  const FirstKey: nat := 1

  /** Every stored key was handed out by the generator: it lies in
      [FirstKey, next). */
  predicate Valid(s: Store) {
    && FirstKey <= s.next
    && forall k :: k in s.entries ==> FirstKey <= k < s.next
  }

  /** The store as it is created on first open. */
  function Empty(): (s: Store)
    ensures Valid(s)
    ensures s.entries == map[]
  {
    Store(map[], FirstKey)
  }

  datatype Added = Added(store: Store, id: nat)

  /** Adds `e` under the key the generator hands out next. */
  function Add(s: Store, e: Entry): (r: Added)
    requires Valid(s)
    ensures r.id == s.next && r.id !in s.entries
    ensures r.store.next == s.next + 1 && r.id < r.store.next
    ensures Valid(r.store)
    ensures r.store.entries.Keys == s.entries.Keys + {r.id}
    ensures |r.store.entries| == |s.entries| + 1
    ensures r.id in r.store.entries && r.store.entries[r.id] == e
    ensures forall k :: k in s.entries ==> r.store.entries[k] == s.entries[k]
  {
    var m := s.entries[s.next := e];
    assert m.Keys == s.entries.Keys + {s.next};
    Added(Store(m, s.next + 1), s.next)
  }

  /** Removes the entry stored under `id`, if any. The key generator is not
      rewound, so a deleted key is never handed out again. */
  function Delete(s: Store, id: nat): (r: Store)
    ensures r.entries.Keys == s.entries.Keys - {id}
    ensures forall k :: k in r.entries ==> r.entries[k] == s.entries[k]
    ensures r.next == s.next
    ensures id !in s.entries ==> r == s
    ensures Valid(s) ==> Valid(r)
  {
    Store(s.entries - {id}, s.next)
  }

  /** The records with key below `n`, in ascending key order. */
  function ListBelow(m: map<nat, Entry>, n: nat): seq<Record>
  {
    if n == 0 then []
    else ListBelow(m, n - 1) + (if n - 1 in m then [Record(n - 1, m[n - 1])] else [])
  }

  /** Every stored record in ascending key order, which is the order in
      which reading the whole store returns them. */
  function ListAll(s: Store): seq<Record> {
    ListBelow(s.entries, s.next)
  }

  lemma {:induction false} ListBelowMembers(m: map<nat, Entry>, n: nat)
    ensures forall r :: r in ListBelow(m, n) <==> r.id < n && r.id in m && m[r.id] == r.entry
  {
    if n > 0 {
      ListBelowMembers(m, n - 1);
    }
  }

  lemma {:induction false} ListBelowSorted(m: map<nat, Entry>, n: nat)
    ensures forall i, j :: 0 <= i < j < |ListBelow(m, n)| ==> ListBelow(m, n)[i].id < ListBelow(m, n)[j].id
  {
    if n > 0 {
      ListBelowSorted(m, n - 1);
      ListBelowMembers(m, n - 1);
      var front := ListBelow(m, n - 1);
      assert forall i :: 0 <= i < |front| ==> front[i] in front;
    }
  }

  lemma {:induction false} ListBelowAgree(m1: map<nat, Entry>, m2: map<nat, Entry>, n: nat)
    requires forall k :: k < n ==> (k in m1 <==> k in m2)
    requires forall k :: k < n && k in m1 ==> m1[k] == m2[k]
    ensures ListBelow(m1, n) == ListBelow(m2, n)
  {
    if n > 0 {
      ListBelowAgree(m1, m2, n - 1);
    }
  }

  /** Listing a valid store yields exactly its records, each once, in
      strictly ascending key order. */
  lemma ListAllSpec(s: Store)
    requires Valid(s)
    ensures forall r :: r in ListAll(s) <==> r.id in s.entries && s.entries[r.id] == r.entry
    ensures forall i, j :: 0 <= i < j < |ListAll(s)| ==> ListAll(s)[i].id < ListAll(s)[j].id
  {
    ListBelowMembers(s.entries, s.next);
    ListBelowSorted(s.entries, s.next);
  }

  /** An added entry is listed after everything already stored, and the
      listing is otherwise unchanged. */
  lemma AddAppends(s: Store, e: Entry)
    requires Valid(s)
    ensures ListAll(Add(s, e).store) == ListAll(s) + [Record(Add(s, e).id, e)]
  {
    var r := Add(s, e);
    ListBelowAgree(r.store.entries, s.entries, s.next);
  }

  /** Predicate of the records not stored under `id`. */
  function NotId(id: nat): Record -> bool {
    (r: Record) => r.id != id
  }

  lemma {:induction false} ListBelowDelete(m: map<nat, Entry>, id: nat, n: nat)
    ensures ListBelow(m - {id}, n) == Filter(ListBelow(m, n), NotId(id))
  {
    if n > 0 {
      var k := n - 1;
      var m' := m - {id};
      ListBelowDelete(m, id, k);
      var front := ListBelow(m, k);
      var tail := if k in m then [Record(k, m[k])] else [];
      var tail' := if k in m' then [Record(k, m'[k])] else [];
      assert ListBelow(m, n) == front + tail;
      assert ListBelow(m', n) == ListBelow(m', k) + tail';
      FilterConcat(front, tail, NotId(id));
      if k in m {
        FilterSingleton(Record(k, m[k]), NotId(id));
      } else {
        assert tail == [];
      }
      assert Filter(tail, NotId(id)) == tail';
    }
  }

  /** Deleting `id` lists exactly the previous records minus the one stored
      under `id`, the rest in their previous order. */
  lemma DeleteFilters(s: Store, id: nat)
    ensures ListAll(Delete(s, id)) == Filter(ListAll(s), NotId(id))
  {
    ListBelowDelete(s.entries, id, s.next);
  }
}

=== FILE: wrappers.dfy ===
/** The two failure-carrying shapes the ledger needs: an optional value
    (a parsed number that may be NaN, a storage slot that may be empty) and
    a value-or-error result. */
module Wrappers {

  datatype Option<+T> = None | Some(value: T)

  datatype Result<+R, +E> = Success(value: R) | Failure(error: E)
}
